=== FILE: README.md ===
# Trivia video timeline, in Dafny

This project models the timing and layering rules of a quiz-video generator
(`video_generator.py`). The generator turns a settings document and a list of
question/answer pairs into one video. Each pair becomes one clip: a question
phase with a per-second countdown, then an answer phase. The clips play one
after another, and an optional soundtrack is looped and trimmed to fit them.

Every media-library clip the generator builds is modelled as an immutable
`Layer` record. A layer keeps what it shows, where it is anchored, its start
and duration in whole seconds relative to its clip, and its fade-in. A `Clip`
lists its layers bottom first, so list order is z-order. Audio is modelled as
the tree of operations that produced it (`Source`, `Looped`, `Trimmed`,
`Scaled`), with durations as reals.

Modules, leaves first:

- `Wrappers`: `Option` and `Result`.
- `Config`: the loaded settings, questions and the error reasons.
- `HexColor`: the `#RRGGBB` background-colour decode, including Python's
  `int(text, 16)` on the two-character slices, and a formatter that inverts it.
- `Decimal`: `str(int)` for the countdown numerals, and a parser that inverts it.
- `TextClean`: `clean_text`, and an escaper that it inverts.
- `Layers`: layers, clips and the time-coverage predicate.
- `Timer`: the countdown ticks of one question clip.
- `QaVideo`: the background choice and the layout of one question clip.
- `AudioTrack`: the soundtrack loop count, trim and volume.
- `Preview`: preview-mode truncation of the question list.
- `Timeline`: the top-level build, one clip per selected question.

Some behaviours of the code are easy to misread; the model keeps them as written:

- Every countdown tick fades in over the transition duration, not only the first, because `create_timer_clip` applies `crossfadein` to each tick.
- The soundtrack takes `floor(total / length) + 1` copies. That is one more than `ceil(total / length)` when the video is an exact multiple of the file's length; the spare copy is trimmed away (`ExactMultipleTakesSpareCopy`).
- Without looping, the file is used at its own length, even when it is longer than the video.
- Preview mode only truncates by count, with Python slice semantics. A negative limit therefore drops questions from the end.
- The image background is read from a top-level `background_image` key. The colour is read from `background.color`.

Python's `int(text, 16)` accepts a sign and surrounding space, `\t`, `\n`,
`\v`, `\f` or `\r`; unlike `str.strip()` it does not skip the separators
U+001C..U+001F (`FileSeparatorIsNotWhitespace`). So the
colour `#-f0000` decodes to a red component of -15
(`SignedSliceGivesNegativeComponent`). A well-formed `#RRGGBB` always gives
components in 0..255 (`DecodeHexColor`).

## Model

| member | source | states |
|---|---|---|
| HexColor.ParseHexField | video_generator.py:133 | `int(piece, 16)` on a slice of at most two characters gives a value in -15..255, negative only for a piece that starts with `-`. Two hex digits give 16·high + low, and an empty slice raises. |
| HexColor.ParseHexFieldCases | video_generator.py:133 | One hex digit alone, a hex digit next to a space or `\t\n\v\f\r`, and a `+` or `-` followed by one hex digit each give the digit's (signed) value; a slice of two whitespace characters raises. |
| HexColor.StripPieceIsStrip | video_generator.py:133 | The strip applied to a two-character slice removes exactly the leading and trailing whitespace `int()` skips (space and `\t\n\v\f\r`), as the same strip does on a text of any length. |
| HexColor.PieceAtIsSlice | video_generator.py:133 | The piece read at offset `i` is Python's clamped slice `digits[i:i+2]`. |
| HexColor.DecodeColor | video_generator.py:133 | A decoded colour has every component in -15..255. Fewer than five characters after the leading `#`s always raise. |
| HexColor.DecodeHexColor | video_generator.py:133 | Any `#` followed by six hex digits decodes. Each component is the value of its digit pair, so it lies in 0..255. |
| HexColor.DecodeFormatRoundTrip | video_generator.py:133 | Formatting a byte-range triple as `#rrggbb` and decoding it returns the same triple. |
| HexColor.FormatDecodeRoundTrip | video_generator.py:133 | Decoding a lower-case `#rrggbb` and formatting the result returns the same text. |
| HexColor.LeadingHashesIgnored | video_generator.py:133 | `lstrip('#')` removes every leading `#`, so an extra `#` does not change the colour. |
| HexColor.SignedSliceGivesNegativeComponent | video_generator.py:133 | `#-f0000` decodes to red -15, because `int` accepts a sign. |
| HexColor.FileSeparatorIsNotWhitespace | video_generator.py:133 | `#\x1cf0000` does not decode, because `int()` does not skip U+001C, while `#\tf0000` decodes to red 15. |
| Decimal.NaturalText | video_generator.py:72 | `str(n)` is a non-empty run of digits. It starts with `0` exactly when `n` is 0. |
| Decimal.IntTextRoundTrip | video_generator.py:72 | Reading the numeral text `str(v)` gives back `v`. |
| TextClean.CleanText | video_generator.py:163-165 | Every quote survives. Only backslashes are removed, so the text never grows. A text without backslashes is unchanged. |
| TextClean.CleanEscapeRoundTrip | video_generator.py:163-165 | Cleaning a text whose quotes were written as `\"` restores it exactly, including the text's own backslashes. |
| TextClean.CleanSplitsAtEscapedQuote | video_generator.py:163-165 | In any text, a backslash-quote pair becomes a bare quote, and the text on either side is cleaned on its own. |
| TextClean.CleanConcat | video_generator.py:163-165 | Cleaning a text cut at any point not followed by a quote equals cleaning both parts and joining them: no pair straddles such a cut. |
| TextClean.CleanChangesIffEscapedQuote | video_generator.py:163-165 | Cleaning changes a text exactly when the text holds a backslash directly followed by a quote. |
| Timer.Ticks | video_generator.py:143-147 | After `k` iterations of the loop, tick `i` starts at `i` and lasts one second. It ends by the end of the question phase, reads back as `q - i`, sits at `('center', 20)`, carries the shadow flag and fades in over the transition duration. |
| Timer.TimerTick | video_generator.py:70-111 | The tick built for second `i` reads back as `q - i` and carries the shadow flag. It is re-anchored at `('center', 20)`, fades in over the transition duration, and is cut to one second, so it is on screen exactly on `[i, i+1)`. |
| Timer.CountdownNumerals | video_generator.py:70-72 | The numerals run `q, q-1, …, 1`. Each is a bare positive integer, so 0 and negative numbers never appear. |
| Timer.TicksPartitionQuestionPhase | video_generator.py:145-147 | At time `t`, tick `i` is on screen exactly when `0 <= t < q` and `i = floor(t)`. So the ticks cover the question phase with no gap or overlap, and none reaches the answer phase. |
| QaVideo.TextLayer | video_generator.py:23-68 | A caption keeps its text, role, the wrap width and the shadow flag. It is centred, fades in over the transition duration, and is on screen exactly on `[0, duration)`. |
| QaVideo.BackgroundLayer | video_generator.py:123-134 | The image is used exactly when `background_image` is set and the file exists. Otherwise the decoded colour is used, and an undecodable colour fails. Either way the background spans the whole clip. A failure to load an existing image is not modelled (see Left out). |
| QaVideo.QaClip | video_generator.py:113-161 | Apart from media-library failures (see Left out), a clip is built exactly when the background can be built and the wrap width is positive. An undecodable colour fails first, with its decode error, because line 133 runs before the captions are wrapped; otherwise a wrap width below 1 fails as `textwrap.wrap` does. A built clip lasts question plus answer duration at the canvas size. |
| QaVideo.QaClipLayout | video_generator.py:123-150 | Z-order is background, question, answer, then only timer ticks. The bottom layer is exactly the background the settings choose (image or decoded colour). The question caption covers `[0, q)` and the answer caption `[q, q+a)`; both are centred and fade in over the transition duration. The ticks are the countdown, and no layer outlasts the clip. |
| QaVideo.CaptionsSplitClip | video_generator.py:137-138 | At every moment of the clip the background is shown and exactly one caption is shown: the question one before `q`, the answer one after. |
| QaVideo.CountdownOnlyDuringQuestion | video_generator.py:143-150 | Inside a clip, the tick at layer `3 + i` is on screen exactly at the times in `[i, i+1)` within the question phase. |
| QaVideo.FiveThreeExample | video_generator.py:117-119 | A 5-second question and a 3-second answer give an 8-second clip with five ticks, none on screen in `[5, 8)`. |
| AudioTrack.LoopsNeeded | video_generator.py:209 | `int(total / length) + 1` copies always run past `total`, and at most one copy more than needed is taken. |
| AudioTrack.ExactMultipleTakesSpareCopy | video_generator.py:209 | When `total` is exactly `k` copies long, `k + 1` copies are taken. |
| AudioTrack.SevenIntoTwenty | video_generator.py:209 | A 7-second file under a 20-second video takes three copies. |
| AudioTrack.BuildTrack | video_generator.py:198-227 | A soundtrack exists exactly when a non-empty file is configured, exists and loads, and looping does not divide by a zero length. A looped track is `int(total / length) + 1` copies of the loaded file (`LoopsNeeded`) trimmed to `total`, so it lasts exactly `total`. Without looping the file is used unchanged. Volume is applied exactly when it is set and non-zero. |
| Preview.SlicePrefix | video_generator.py:180 | `xs[:limit]` is a prefix of length `min(limit, n)` for a non-negative limit, and `max(0, n + limit)` for a negative one. |
| Preview.SelectQuestions | video_generator.py:176-180 | The selected questions are always a prefix of the list. With preview off they are the whole list; with preview on they are the slice at the configured limit. |
| Preview.DefaultLimitKeepsTwo | video_generator.py:179 | In preview mode without `questions_limit`, the first two questions are kept. |
| Timeline.BuildVideo | video_generator.py:167-223 | Apart from media-library failures (see Left out), the video fails exactly when no question is selected, the background colour cannot be decoded, or the wrap width is below 1, with the error of the first of these. Otherwise there is one clip per selected question, in order, from the cleaned texts. A looping soundtrack lasts exactly as long as the clips. |
| Timeline.VideoLength | video_generator.py:184-196 | The concatenated video lasts (number of selected questions) × (question + answer duration). |
| Timeline.UniformTotal | video_generator.py:195-196 | Clips of equal length `d` play for `d` times their number. |

## Left out

- Rendering: `TextClip`, `ImageClip`, `ColorClip`, `CompositeVideoClip`, `resize`, `crossfadein`, `concatenate_*` and `write_videofile` are media-library calls. Only the start, duration, anchor, fade and order they are given are kept.
- Text attributes: font, font size, colour, alignment and `max_width` are passed to the renderer unchanged, so they are left out.
- Shadow geometry: the shadow offsets inside the text and timer composites (lines 53-59 and 94-103) are renderer geometry. Line 103 re-anchors the timer anyway. Only a `shadowed` flag is kept.
- `wrap_text`: the line breaking of Python's `textwrap.wrap` is not modelled. A caption keeps the unwrapped text and the wrap width. The one failure of `textwrap.wrap` that matters here, a width below 1, is modelled as the `InvalidWrapWidth` error.
- The timer and captions as nested composites: the final clip is a composite of the base composite plus the ticks. The model flattens this into one layer list in the same order.
- The `audio_clip` parameter of `create_qa_video`: the only caller passes `None`, so per-clip audio is not modelled.
- File system and I/O: the ImageMagick path, `load_settings`, reading `questions.json`, `os.path.exists`, and loading the audio file. Existence and the loaded duration are inputs (`imageExists`, `audioFileExists`, `loadedAudio`).
- Printing, re-raising, `threads=4` and `close()` calls.
- Durations: the question duration is a whole number of seconds (`nat`), because `range(q_duration)` needs an integer. The answer duration is only added and passed to `set_duration`/`set_start`, so the code would accept a fractional one; making it whole (`nat`) is a modelling choice. Audio lengths are exact reals, not IEEE floats. Negative durations are excluded by the types.
- Settings shape: settings are a typed record, so the `KeyError`s raised by missing mandatory keys are not modelled. Optional keys are `Option`s with the source's defaults.
- `HexColor.ParseHexField`: models `int(text, 16)` for ASCII text only. Python also accepts Unicode digits and Unicode whitespace, which the model treats as errors.
- Empty video: `concatenate_videoclips([])` fails inside the media library when it takes the maximum clip size. This is modelled as the `NoClips` error.
- Media-library failures: exceptions raised inside `ImageClip`, `TextClip`, `ColorClip` or the composites are not modelled. For example, an existing path that is a directory or not a readable image makes `ImageClip` raise, and `create_qa_video` re-raises. The model treats an existing file as a usable image, so `QaVideo.BackgroundLayer`, `QaVideo.QaClip` and `Timeline.BuildVideo` promise success in that case.

=== FILE: audio_track.dfy ===
/**
 * The soundtrack of `main`: the configured audio file, looped and trimmed to
 * the length of the video, or used as it is, with an optional volume factor.
 * Durations are seconds as reals.
 */
module AudioTrack {
  import opened Wrappers
  import opened Config

  /** The audio clips the source builds, kept as the operations that produced them. */
  datatype Audio =
    | Source(length: real)               // the loaded file, `length` seconds long
    | Looped(clip: Audio, copies: nat)   // `copies` copies of `clip` one after another
    | Trimmed(clip: Audio, end: real)    // `clip.subclip(0, end)`
    | Scaled(clip: Audio, factor: real)  // `clip.volumex(factor)`

  function Duration(a: Audio): real {
    match a
    case Source(length) => length
    case Looped(clip, copies) => copies as real * Duration(clip)
    case Trimmed(_, end) => end
    case Scaled(clip, _) => Duration(clip)
  }

  /** Every trim ends within the audio it cuts. */
  predicate WellFormed(a: Audio) {
    match a
    case Source(length) => length >= 0.0
    case Looped(clip, _) => WellFormed(clip)
    case Trimmed(clip, end) => WellFormed(clip) && 0.0 <= end <= Duration(clip)
    case Scaled(clip, _) => WellFormed(clip)
  }

  /** The audio before the volume factor, if one was applied. */
  function Unscaled(a: Audio): Audio {
    if a.Scaled? then a.clip else a
  }

  /**
   * `int(total / length) + 1`: enough copies to run past `total`, and at
   * most one copy more than needed to reach it.
   */
  function LoopsNeeded(total: real, length: real): (n: nat)
    requires total >= 0.0 && length > 0.0
    ensures n as real * length > total
    ensures (n - 1) as real * length <= total
  {
    var quotient := total / length;
    var whole := quotient.Floor;
    assert quotient * length == total;
    assert whole as real <= quotient < whole as real + 1.0;
    ScaleStrict(quotient, whole as real + 1.0, length);
    ScaleWeak(whole as real, quotient, length);
    whole + 1
  }

  lemma ScaleStrict(x: real, y: real, k: real)
    requires x < y && k > 0.0
    ensures x * k < y * k
  {
  }

  lemma ScaleWeak(x: real, y: real, k: real)
    requires x <= y && k > 0.0
    ensures x * k <= y * k
  {
  }

  /**
   * When the video is an exact number of copies long, the loop still takes
   * one copy more than that number; the trim removes the spare copy.
   */
  lemma ExactMultipleTakesSpareCopy(copies: nat, length: real)
    requires length > 0.0
    ensures LoopsNeeded(copies as real * length, length) == copies + 1
  {
    var total := copies as real * length;
    assert total / length == copies as real;
  }

  /** A seven-second file under a twenty-second video: three copies, trimmed to twenty seconds. */
  lemma SevenIntoTwenty()
    ensures LoopsNeeded(20.0, 7.0) == 3
  {
    assert (20.0 / 7.0).Floor == 2;
  }

  /** `'audio' in settings and settings['audio'].get('file')`: a non-empty file name. */
  predicate HasAudioFile(cfg: Option<AudioConfig>) {
    cfg.Some? && cfg.value.file.Some? && cfg.value.file.value != ""
  }

  /** `get('loop', True)`. */
  predicate Loops(c: AudioConfig) {
    c.loop.GetOr(true)
  }

  /** `get('volume')` is truthy: present and non-zero. */
  predicate VolumeSet(c: AudioConfig) {
    c.volume.Some? && c.volume.value != 0.0
  }

  /**
   * The soundtrack for a video of `total` seconds. `loaded` is the duration
   * of the decoded file, or `None` when loading raised. Any exception inside
   * the audio block (a failed load, or the division by a zero-length file)
   * is caught and leaves the video without audio.
   */
  function BuildTrack(cfg: Option<AudioConfig>, fileExists: bool, loaded: Option<real>, total: real): (r: Option<Audio>)
    requires total >= 0.0
    requires loaded.Some? ==> loaded.value >= 0.0
    ensures r.Some? <==> HasAudioFile(cfg) && fileExists && loaded.Some? && (!Loops(cfg.value) || loaded.value > 0.0)
    ensures r.Some? ==> WellFormed(r.value)
    ensures r.Some? && Loops(cfg.value) ==> Duration(r.value) == total
    ensures r.Some? && Loops(cfg.value) ==>
              Unscaled(r.value) == Trimmed(Looped(Source(loaded.value), LoopsNeeded(total, loaded.value)), total)
    ensures r.Some? && !Loops(cfg.value) ==> Unscaled(r.value) == Source(loaded.value)
    ensures r.Some? ==> (r.value.Scaled? <==> VolumeSet(cfg.value))
    ensures r.Some? && VolumeSet(cfg.value) ==> r.value.factor == cfg.value.volume.value
  {
    if !HasAudioFile(cfg) || !fileExists || loaded.None? then None
    else
      var c := cfg.value;
      var length := loaded.value;
      if Loops(c) && length == 0.0 then None
      else
        var base :=
          if Loops(c) then
            var looped := Looped(Source(length), LoopsNeeded(total, length));
            assert Duration(looped) > total;
            Trimmed(looped, total)
          else Source(length);
        assert WellFormed(base);
        Some(if VolumeSet(c) then Scaled(base, c.volume.value) else base)
  }
}

=== FILE: config.dfy ===
/**
 * The settings document and the question list, as already-loaded values.
 * Optional keys are `Option`s; a key the source reads with a default keeps
 * that default at its point of use, not here.
 */
module Config {
  import opened Wrappers

  /** The `preview_mode` section: `enabled` and `questions_limit` may each be missing. */
  datatype PreviewMode = PreviewMode(enabled: Option<bool>, questionsLimit: Option<int>)

  /** The `audio` section: `file`, `loop` and `volume` may each be missing. */
  datatype AudioConfig = AudioConfig(file: Option<string>, loop: Option<bool>, volume: Option<real>)

  /**
   * The parts of `settings.json` the timeline depends on. Durations are whole
   * seconds: the question duration drives `range`, so it is an integer.
   */
  datatype Settings = Settings(
    width: nat,
    height: nat,
    questionDuration: nat,
    answerDuration: nat,
    backgroundImage: Option<string>,
    backgroundColor: string,
    wrapWidth: int,
    shadowEnabled: bool,
    transitionDuration: real,
    previewMode: Option<PreviewMode>,
    audio: Option<AudioConfig>)

  /** One entry of `questions.json`. */
  datatype Question = Question(question: string, answer: string)

  /** Why building the video fails. */
  datatype Error =
    | InvalidHexColor(hex: string)  // `int(..., 16)` raised while decoding the background colour
    | InvalidWrapWidth(width: int)  // `textwrap.wrap` raises for a width below 1
    | NoClips                       // concatenating an empty clip list raises in the media library
}

=== FILE: decimal.dfy ===
/**
 * Python's `str(int)` for the countdown numerals, and the decimal reading that
 * undoes it.
 */
module Decimal {
  import opened Wrappers

  predicate IsDigit(c: char) {
    '0' <= c <= '9'
  }

  function DigitChar(d: nat): (c: char)
    requires d < 10
    ensures IsDigit(c)
  {
    ('0' as int + d) as char
  }

  /** `str(n)` for `n >= 0`: decimal digits, most significant first, no leading zero. */
  function NaturalText(n: nat): (s: string)
    ensures |s| >= 1
    ensures forall i :: 0 <= i < |s| ==> IsDigit(s[i])
    ensures s[0] == '0' <==> n == 0
    decreases n
  {
    if n < 10 then [DigitChar(n)] else NaturalText(n / 10) + [DigitChar(n % 10)]
  }

  /** `str(v)` for any integer: a `-` in front of the digits of a negative number. */
  function IntText(v: int): (s: string)
    ensures |s| >= 1
    ensures s[0] == '-' <==> v < 0
  {
    if v < 0 then "-" + NaturalText(-v) else NaturalText(v)
  }

  /** The value of a string of decimal digits. */
  function DigitsValue(s: string): nat
    requires forall i :: 0 <= i < |s| ==> IsDigit(s[i])
  {
    if s == [] then 0
    else
      assert IsDigit(s[|s| - 1]);
      10 * DigitsValue(s[..|s| - 1]) + (s[|s| - 1] as int - '0' as int)
  }

  /** Reads an optional `-` followed by one or more digits; `None` for anything else. */
  function ParseInt(s: string): (r: Option<int>)
    ensures r.Some? ==> |s| >= 1
  {
    if |s| >= 1 && s[0] == '-' then
      if |s| >= 2 && forall i :: 1 <= i < |s| ==> IsDigit(s[i]) then
        var magnitude: int := DigitsValue(s[1..]);
        Some(-magnitude)
      else None
    else if |s| >= 1 && forall i :: 0 <= i < |s| ==> IsDigit(s[i]) then Some(DigitsValue(s))
    else None
  }

  lemma {:induction false} NaturalTextValue(n: nat)
    ensures DigitsValue(NaturalText(n)) == n
    decreases n
  {
    if n >= 10 {
      var prefix := NaturalText(n / 10);
      var s := prefix + [DigitChar(n % 10)];
      assert s[..|s| - 1] == prefix;
      NaturalTextValue(n / 10);
    }
  }

  /** Reading the text `str(v)` gives `v` back. */
  lemma IntTextRoundTrip(v: int)
    ensures ParseInt(IntText(v)) == Some(v)
  {
    if v < 0 {
      var digits := NaturalText(-v);
      NaturalTextValue(-v);
      var s := "-" + digits;
      assert s[1..] == digits;
      assert forall i :: 1 <= i < |s| ==> IsDigit(s[i]) by {
        forall i | 1 <= i < |s|
          ensures IsDigit(s[i])
        {
          assert s[i] == digits[i - 1];
        }
      }
    } else {
      NaturalTextValue(v);
      assert NaturalText(v)[0] != '-';
    }
  }
}

=== FILE: hex_color.dfy ===
/**
 * The background colour decode of `create_qa_video`: the `#` prefix is
 * stripped, and the two-character slices at offsets 0, 2 and 4 are each read
 * with Python's `int(text, 16)`. Only slices of at most two characters ever
 * reach `int`, so `ParseHexField` models `int(text, 16)` for exactly those.
 */
module HexColor {
  import opened Wrappers

  /** A colour triple as the source builds it; components are not range-checked there. */
  datatype Rgb = Rgb(red: int, green: int, blue: int)

  predicate InByteRange(c: Rgb) {
    0 <= c.red < 256 && 0 <= c.green < 256 && 0 <= c.blue < 256
  }

  predicate IsHexDigit(c: char) {
    ('0' <= c <= '9') || ('a' <= c <= 'f') || ('A' <= c <= 'F')
  }

  predicate IsLowerHexDigit(c: char) {
    ('0' <= c <= '9') || ('a' <= c <= 'f')
  }

  function HexDigitValue(c: char): (v: nat)
    requires IsHexDigit(c)
    ensures v < 16
    ensures (v < 10) <==> ('0' <= c <= '9')
  {
    if '0' <= c <= '9' then c as int - '0' as int
    else if 'a' <= c <= 'f' then c as int - 'a' as int + 10
    else c as int - 'A' as int + 10
  }

  /** The lower-case digit for `v`; `HexDigitValue` is its inverse on lower-case digits. */
  function LowerHexDigit(v: nat): (c: char)
    requires v < 16
    ensures IsLowerHexDigit(c) && IsHexDigit(c)
    ensures HexDigitValue(c) == v
  {
    if v < 10 then ('0' as int + v) as char else ('a' as int + v - 10) as char
  }

  lemma LowerHexDigitOfValue(c: char)
    requires IsLowerHexDigit(c)
    ensures LowerHexDigit(HexDigitValue(c)) == c
  {
  }

  /**
   * The ASCII characters `int()` skips around a numeral: space and `\t\n\v\f\r`.
   * The separators U+001C..U+001F, which `str.strip()` would also remove, are
   * not among them.
   */
  predicate IsIntWhitespace(c: char) {
    c == ' ' || (9 <= c as int <= 13)
  }

  function LStripWhitespace(s: string): (r: string)
    ensures |r| <= |s| && r == s[|s| - |r|..]
    ensures r == [] || !IsIntWhitespace(r[0])
    ensures forall k :: 0 <= k < |s| - |r| ==> IsIntWhitespace(s[k])
  {
    if |s| > 0 && IsIntWhitespace(s[0]) then LStripWhitespace(s[1..]) else s
  }

  function RStripWhitespace(s: string): (r: string)
    ensures |r| <= |s| && r == s[..|r|]
    ensures r == [] || !IsIntWhitespace(r[|r| - 1])
    ensures forall k :: |r| <= k < |s| ==> IsIntWhitespace(s[k])
  {
    if |s| > 0 && IsIntWhitespace(s[|s| - 1]) then RStripWhitespace(s[..|s| - 1]) else s
  }

  /** Any text with `int()`'s whitespace removed at both ends. */
  function StripWhitespace(s: string): (r: string)
    ensures r == [] || (!IsIntWhitespace(r[0]) && !IsIntWhitespace(r[|r| - 1]))
  {
    RStripWhitespace(LStripWhitespace(s))
  }

  /** Python's `s[i:j]` for `0 <= i <= j`: out-of-range bounds are clamped to the length. */
  function Slice(s: string, i: nat, j: nat): (r: string)
    requires i <= j
    ensures |r| <= j - i
  {
    if |s| <= i then [] else if |s| <= j then s[i..] else s[i..j]
  }

  /** A text of at most two characters: everything `digits[i:i+2]` can be. */
  datatype Piece = Blank | Single(only: char) | Double(first: char, second: char)

  function Text(p: Piece): string {
    match p
    case Blank => []
    case Single(c) => [c]
    case Double(a, b) => [a, b]
  }

  /** `digits[i:i+2]`: two characters, or fewer where the text ends. */
  function PieceAt(digits: string, i: nat): Piece {
    if i + 2 <= |digits| then Double(digits[i], digits[i + 1])
    else if i + 1 == |digits| then Single(digits[i])
    else Blank
  }

  /** `PieceAt` is Python's slice. */
  lemma PieceAtIsSlice(digits: string, i: nat)
    ensures Text(PieceAt(digits, i)) == Slice(digits, i, i + 2)
  {
  }

  /** The whitespace `int()` ignores, removed from a piece. */
  function StripPiece(p: Piece): Piece {
    match p
    case Blank => Blank
    case Single(c) => if IsIntWhitespace(c) then Blank else p
    case Double(a, b) =>
      if IsIntWhitespace(a) && IsIntWhitespace(b) then Blank
      else if IsIntWhitespace(a) then Single(b)
      else if IsIntWhitespace(b) then Single(a)
      else p
  }

  /** `StripPiece` removes exactly the surrounding whitespace `int()` ignores, as on a text of any length. */
  lemma StripPieceIsStrip(p: Piece)
    ensures Text(StripPiece(p)) == StripWhitespace(Text(p))
  {
    match p
    case Blank =>
    case Single(c) => StripOne(c);
    case Double(a, b) =>
      if IsIntWhitespace(a) {
        LStripLeading(a, b);
        StripOne(b);
      } else {
        assert LStripWhitespace([a, b]) == [a, b];
        if IsIntWhitespace(b) {
          RStripTrailing(a, b);
        } else {
          assert RStripWhitespace([a, b]) == [a, b];
        }
      }
  }

  lemma StripOne(c: char)
    ensures StripWhitespace([c]) == if IsIntWhitespace(c) then [] else [c]
  {
    assert [c][1..] == [] && [c][..0] == [];
    if !IsIntWhitespace(c) {
      assert LStripWhitespace([c]) == [c];
      assert RStripWhitespace([c]) == [c];
    }
  }

  lemma LStripLeading(a: char, b: char)
    requires IsIntWhitespace(a)
    ensures LStripWhitespace([a, b]) == LStripWhitespace([b])
    ensures StripWhitespace([a, b]) == StripWhitespace([b])
  {
    assert [a, b][1..] == [b];
  }

  lemma RStripTrailing(a: char, b: char)
    requires !IsIntWhitespace(a) && IsIntWhitespace(b)
    ensures StripWhitespace([a, b]) == [a]
  {
    assert LStripWhitespace([a, b]) == [a, b];
    assert [a, b][..1] == [a];
    assert RStripWhitespace([a, b]) == RStripWhitespace([a]);
    assert [a][..0] == [];
    assert RStripWhitespace([a]) == [a];
  }

  /** `int(t, 16)` for a piece with no surrounding whitespace. */
  function ParseStripped(p: Piece): Option<int> {
    match p
    case Blank => None
    case Single(c) => if IsHexDigit(c) then Some(HexDigitValue(c)) else None
    case Double(a, b) =>
      if a == '+' || a == '-' then
        if IsHexDigit(b) then
          var d: int := HexDigitValue(b);
          Some(if a == '-' then -d else d)
        else None
      else if IsHexDigit(a) && IsHexDigit(b) then Some(PairValue(a, b))
      else None
  }

  /**
   * Python's `int(text, 16)` on a text of at most two characters: surrounding
   * whitespace is ignored, then either one or two hex digits, or a sign
   * followed by one hex digit; anything else raises (`None`).
   */
  function ParseHexField(p: Piece): (r: Option<int>)
    ensures r.Some? ==> -15 <= r.value <= 255
    ensures r.Some? && r.value < 0 ==> p.Double? && p.first == '-'
    ensures p.Double? && IsHexDigit(p.first) && IsHexDigit(p.second) ==> r == Some(PairValue(p.first, p.second))
    ensures p.Blank? ==> r == None
  {
    ParseStripped(StripPiece(p))
  }

  /**
   * The remaining forms `int` accepts: one digit alone, next to whitespace, or
   * after a sign; whitespace alone raises.
   */
  lemma ParseHexFieldCases(p: Piece)
    ensures p.Single? && IsHexDigit(p.only) ==> ParseHexField(p) == Some(HexDigitValue(p.only))
    ensures p.Double? && IsIntWhitespace(p.first) && IsHexDigit(p.second) ==> ParseHexField(p) == Some(HexDigitValue(p.second))
    ensures p.Double? && IsHexDigit(p.first) && IsIntWhitespace(p.second) ==> ParseHexField(p) == Some(HexDigitValue(p.first))
    ensures p.Double? && p.first == '+' && IsHexDigit(p.second) ==> ParseHexField(p) == Some(HexDigitValue(p.second))
    ensures p.Double? && p.first == '-' && IsHexDigit(p.second) ==> ParseHexField(p) == Some(-(HexDigitValue(p.second) as int))
    ensures p.Double? && IsIntWhitespace(p.first) && IsIntWhitespace(p.second) ==> ParseHexField(p) == None
  {
  }

  /** `s.lstrip('#')`: every leading `#` is removed. */
  function LStripHash(s: string): (r: string)
    ensures |r| <= |s| && r == s[|s| - |r|..]
    ensures r == [] || r[0] != '#'
    ensures forall i :: 0 <= i < |s| - |r| ==> s[i] == '#'
  {
    if |s| > 0 && s[0] == '#' then LStripHash(s[1..]) else s
  }

  /** The decode of `create_qa_video`: `None` where `int(..., 16)` raises. */
  function DecodeColor(hex: string): (r: Option<Rgb>)
    ensures r.Some? ==> -15 <= r.value.red <= 255 && -15 <= r.value.green <= 255 && -15 <= r.value.blue <= 255
    ensures |LStripHash(hex)| < 5 ==> r == None
  {
    DecodeDigits(LStripHash(hex))
  }

  /** The three reads, at offsets 0, 2 and 4, on the text left after `lstrip('#')`. */
  function DecodeDigits(digits: string): Option<Rgb> {
    var red := ParseHexField(PieceAt(digits, 0));
    var green := ParseHexField(PieceAt(digits, 2));
    var blue := ParseHexField(PieceAt(digits, 4));
    if red.Some? && green.Some? && blue.Some? then Some(Rgb(red.value, green.value, blue.value)) else None
  }

  /** `#RRGGBB`: a `#` and six hex digits. */
  predicate IsHexColor(s: string) {
    |s| == 7 && s[0] == '#' && forall i :: 1 <= i < 7 ==> IsHexDigit(s[i])
  }

  function PairValue(hi: char, lo: char): (v: nat)
    requires IsHexDigit(hi) && IsHexDigit(lo)
    ensures v < 256
  {
    16 * HexDigitValue(hi) + HexDigitValue(lo)
  }

  /** A well-formed `#RRGGBB` decodes, and each component is the value of its digit pair. */
  lemma DecodeHexColor(s: string)
    requires IsHexColor(s)
    ensures DecodeColor(s) == Some(Rgb(PairValue(s[1], s[2]), PairValue(s[3], s[4]), PairValue(s[5], s[6])))
    ensures InByteRange(DecodeColor(s).value)
  {
    StripSingleHash(s);
    var digits := s[1..];
    assert PieceAt(digits, 0) == Double(s[1], s[2]);
    assert PieceAt(digits, 2) == Double(s[3], s[4]);
    assert PieceAt(digits, 4) == Double(s[5], s[6]);
  }

  lemma StripSingleHash(s: string)
    requires |s| >= 2 && s[0] == '#' && s[1] != '#'
    ensures LStripHash(s) == s[1..]
  {
    assert LStripHash(s) == LStripHash(s[1..]);
  }

  /** Formats a byte-range triple as `#rrggbb` with lower-case digits. */
  function FormatColor(c: Rgb): (s: string)
    requires InByteRange(c)
    ensures IsHexColor(s)
    ensures forall i :: 1 <= i < 7 ==> IsLowerHexDigit(s[i])
  {
    "#" + [LowerHexDigit(c.red / 16), LowerHexDigit(c.red % 16),
           LowerHexDigit(c.green / 16), LowerHexDigit(c.green % 16),
           LowerHexDigit(c.blue / 16), LowerHexDigit(c.blue % 16)]
  }

  /** Formatting a colour and decoding the text gives the colour back. */
  lemma DecodeFormatRoundTrip(c: Rgb)
    requires InByteRange(c)
    ensures DecodeColor(FormatColor(c)) == Some(c)
  {
    var s := FormatColor(c);
    DecodeHexColor(s);
    BytePairRoundTrip(c.red);
    BytePairRoundTrip(c.green);
    BytePairRoundTrip(c.blue);
    assert s[1] == LowerHexDigit(c.red / 16) && s[2] == LowerHexDigit(c.red % 16);
    assert s[3] == LowerHexDigit(c.green / 16) && s[4] == LowerHexDigit(c.green % 16);
    assert s[5] == LowerHexDigit(c.blue / 16) && s[6] == LowerHexDigit(c.blue % 16);
  }

  lemma BytePairRoundTrip(v: int)
    requires 0 <= v < 256
    ensures PairValue(LowerHexDigit(v / 16), LowerHexDigit(v % 16)) == v
  {
  }

  /** Decoding a lower-case `#rrggbb` and formatting the result gives the text back. */
  lemma FormatDecodeRoundTrip(s: string)
    requires IsHexColor(s)
    requires forall i :: 1 <= i < 7 ==> IsLowerHexDigit(s[i])
    ensures DecodeColor(s).Some? && InByteRange(DecodeColor(s).value)
    ensures FormatColor(DecodeColor(s).value) == s
  {
    DecodeHexColor(s);
    assert IsLowerHexDigit(s[1]) && IsLowerHexDigit(s[2]) && IsLowerHexDigit(s[3]);
    assert IsLowerHexDigit(s[4]) && IsLowerHexDigit(s[5]) && IsLowerHexDigit(s[6]);
    var c := Rgb(PairValue(s[1], s[2]), PairValue(s[3], s[4]), PairValue(s[5], s[6]));
    assert DecodeColor(s).value == c;
    FormatOfPairs(s[1], s[2], s[3], s[4], s[5], s[6]);
    SpellOut(s);
  }

  lemma SpellOut(s: string)
    requires |s| == 7 && s[0] == '#'
    ensures s == "#" + [s[1], s[2], s[3], s[4], s[5], s[6]]
  {
  }

  lemma FormatOfPairs(r1: char, r2: char, g1: char, g2: char, b1: char, b2: char)
    requires IsLowerHexDigit(r1) && IsLowerHexDigit(r2) && IsLowerHexDigit(g1)
    requires IsLowerHexDigit(g2) && IsLowerHexDigit(b1) && IsLowerHexDigit(b2)
    ensures FormatColor(Rgb(PairValue(r1, r2), PairValue(g1, g2), PairValue(b1, b2))) == "#" + [r1, r2, g1, g2, b1, b2]
  {
    PairDigits(r1, r2);
    PairDigits(g1, g2);
    PairDigits(b1, b2);
  }

  lemma PairDigits(hi: char, lo: char)
    requires IsLowerHexDigit(hi) && IsLowerHexDigit(lo)
    ensures LowerHexDigit(PairValue(hi, lo) / 16) == hi
    ensures LowerHexDigit(PairValue(hi, lo) % 16) == lo
  {
    var v := PairValue(hi, lo);
    assert v / 16 == HexDigitValue(hi);
    assert v % 16 == HexDigitValue(lo);
    LowerHexDigitOfValue(hi);
    LowerHexDigitOfValue(lo);
  }

  /** Any number of leading `#` characters is accepted: `"##ff0000"` decodes like `"#ff0000"`. */
  lemma LeadingHashesIgnored(s: string)
    ensures DecodeColor("#" + s) == DecodeColor(s)
  {
    assert ("#" + s)[1..] == s;
  }

  /**
   * `int` skips only space and `\t\n\v\f\r`: a slice holding the file
   * separator U+001C raises, so the colour does not decode.
   */
  lemma FileSeparatorIsNotWhitespace()
    ensures DecodeColor("#\U{1C}f0000") == None
    ensures DecodeColor("#\tf0000") == Some(Rgb(15, 0, 0))
  {
    StripSingleHash("#\U{1C}f0000");
    assert PieceAt("\U{1C}f0000", 0) == Double(28 as char, 'f');
    StripSingleHash("#\tf0000");
    var digits := "\tf0000";
    assert PieceAt(digits, 0) == Double('\t', 'f');
    assert PieceAt(digits, 2) == Double('0', '0');
    assert PieceAt(digits, 4) == Double('0', '0');
  }

  /** `int` accepts a sign, so a slice such as `-f` yields a negative component. */
  lemma SignedSliceGivesNegativeComponent()
    ensures DecodeColor("#-f0000") == Some(Rgb(-15, 0, 0))
  {
    StripSingleHash("#-f0000");
    var digits := "-f0000";
    assert PieceAt(digits, 0) == Double('-', 'f');
    assert PieceAt(digits, 2) == Double('0', '0');
    assert PieceAt(digits, 4) == Double('0', '0');
  }
}

=== FILE: layers.dfy ===
/**
 * The abstract form of the media-library clips: each clip the source builds
 * becomes a `Layer` that keeps only what the timeline decides (what it shows,
 * where it is anchored, when it starts, how long it lasts, its fade-in).
 * Layers are listed bottom first, so list order is z-order.
 */
module Layers {
  import opened HexColor

  datatype Role = QuestionRole | AnswerRole

  /** A background: an image file scaled to the canvas, or a solid colour. */
  datatype Fill = ImageFill(path: string) | ColorFill(color: Rgb)

  /** Where a layer is anchored on the canvas. */
  datatype Position =
    | Origin            // the top-left corner (the default of a composite)
    | Centered          // `set_position('center')`
    | CenteredAt(y: int) // `set_position(('center', y))`

  datatype Content =
    | Backdrop(fill: Fill)
      /** Text wrapped at `wrapWidth` columns; `shadowed` puts a shadow copy beneath it. */
    | Caption(role: Role, text: string, wrapWidth: int, shadowed: bool)
    | Countdown(numeral: string, shadowed: bool)

  /** Times are whole seconds relative to the start of the owning clip. */
  datatype Layer = Layer(content: Content, position: Position, start: nat, duration: nat, fadeIn: real)

  function End(l: Layer): nat {
    l.start + l.duration
  }

  /** The layer is on screen at time `t`: its interval is `[start, start + duration)`. */
  predicate Covers(l: Layer, t: real) {
    l.start as real <= t < End(l) as real
  }

  /** A composite of `width` by `height` pixels lasting `duration` seconds. */
  datatype Clip = Clip(width: nat, height: nat, layers: seq<Layer>, duration: nat)
}

=== FILE: preview.dfy ===
/** Preview mode of `main`: only the first `questions_limit` questions are rendered. */
module Preview {
  import opened Wrappers
  import opened Config

  /** The limit used when preview mode is on but `questions_limit` is missing. */
  const DefaultQuestionsLimit: int := 2

  function Min(a: int, b: int): int {
    if a <= b then a else b
  }

  function Max(a: int, b: int): int {
    if a <= b then b else a
  }

  /** Python's `xs[:limit]`: a negative limit counts from the end. */
  function SlicePrefix(xs: seq<Question>, limit: int): (r: seq<Question>)
    ensures r <= xs
    ensures limit >= 0 ==> |r| == Min(limit, |xs|)
    ensures limit < 0 ==> |r| == Max(0, |xs| + limit)
  {
    if limit >= 0 then xs[..Min(limit, |xs|)] else xs[..Max(0, |xs| + limit)]
  }

  /** `settings.get('preview_mode', {}).get('enabled', False)`. */
  predicate Enabled(p: Option<PreviewMode>) {
    p.Some? && p.value.enabled.GetOr(false)
  }

  function Limit(p: PreviewMode): int {
    p.questionsLimit.GetOr(DefaultQuestionsLimit)
  }

  /**
   * The questions that are rendered: always a prefix of the list, the whole
   * list when preview mode is off, and `min(limit, n)` of them when it is on.
   */
  function SelectQuestions(questions: seq<Question>, p: Option<PreviewMode>): (r: seq<Question>)
    ensures r <= questions
    ensures !Enabled(p) ==> r == questions
    ensures Enabled(p) && Limit(p.value) >= 0 ==> |r| == Min(Limit(p.value), |questions|)
    ensures Enabled(p) && Limit(p.value) < 0 ==> |r| == Max(0, |questions| + Limit(p.value))
  {
    if Enabled(p) then SlicePrefix(questions, Limit(p.value)) else questions
  }

  /** Without an explicit limit, preview mode keeps the first two questions. */
  lemma DefaultLimitKeepsTwo(questions: seq<Question>, p: Option<PreviewMode>)
    requires Enabled(p) && p.value.questionsLimit.None?
    ensures SelectQuestions(questions, p) == questions[..Min(2, |questions|)]
  {
  }
}

=== FILE: qa_clip.dfy ===
/**
 * `create_qa_video`: one clip per question/answer pair, lasting the question
 * phase plus the answer phase, with the background at the bottom, the two
 * captions above it and the countdown on top.
 */
module QaVideo {
  import opened Wrappers
  import opened Config
  import opened HexColor
  import opened Layers
  import opened Timer

  /** The image is used only when `background_image` is set and the file exists. */
  predicate UsesImage(s: Settings, imageExists: bool) {
    s.backgroundImage.Some? && imageExists
  }

  /**
   * The background spanning the whole clip: the image when it is usable,
   * otherwise the decoded colour; `None` when the colour cannot be decoded
   * (the colour is read only on that branch).
   */
  function BackgroundLayer(s: Settings, imageExists: bool, total: nat): (r: Option<Layer>)
    ensures r.Some? <==> (UsesImage(s, imageExists) || DecodeColor(s.backgroundColor).Some?)
    ensures r.Some? ==> r.value.content.Backdrop? && r.value.start == 0 && r.value.duration == total
    ensures r.Some? ==> (r.value.content.fill.ImageFill? <==> UsesImage(s, imageExists))
    ensures r.Some? && UsesImage(s, imageExists) ==> r.value.content.fill.path == s.backgroundImage.value
    ensures r.Some? && !UsesImage(s, imageExists) ==> Some(r.value.content.fill.color) == DecodeColor(s.backgroundColor)
  {
    if UsesImage(s, imageExists) then
      Some(Layer(Backdrop(ImageFill(s.backgroundImage.value)), Origin, 0, total, 0.0))
    else
      match DecodeColor(s.backgroundColor)
      case Some(rgb) => Some(Layer(Backdrop(ColorFill(rgb)), Origin, 0, total, 0.0))
      case None => None
  }

  /** `create_text_clip`: the wrapped text, centred, lasting `duration`, fading in. */
  function TextLayer(text: string, role: Role, duration: nat, s: Settings): (r: Layer)
    ensures r.content.Caption? && r.content.role == role && r.content.text == text
    ensures r.content.wrapWidth == s.wrapWidth && r.content.shadowed == s.shadowEnabled
    ensures r.position == Centered && r.fadeIn == s.transitionDuration
    ensures forall t: real :: Covers(r, t) <==> 0.0 <= t < duration as real
  {
    Layer(Caption(role, text, s.wrapWidth, s.shadowEnabled), Centered, 0, duration, s.transitionDuration)
  }

  /** Z-order of a question clip: background, question, answer, then only countdown ticks. */
  predicate Stacked(layers: seq<Layer>) {
    && |layers| >= 3
    && layers[0].content.Backdrop?
    && layers[1].content.Caption? && layers[1].content.role == QuestionRole
    && layers[2].content.Caption? && layers[2].content.role == AnswerRole
    && forall k :: 3 <= k < |layers| ==> layers[k].content.Countdown?
  }

  function QaClip(question: string, answer: string, s: Settings, imageExists: bool): (r: Result<Clip, Error>)
    ensures r.Success? <==> (UsesImage(s, imageExists) || DecodeColor(s.backgroundColor).Some?) && s.wrapWidth > 0
    ensures r.Failure? ==> r.error == (if UsesImage(s, imageExists) || DecodeColor(s.backgroundColor).Some?
                                       then InvalidWrapWidth(s.wrapWidth) else InvalidHexColor(s.backgroundColor))
    ensures r.Success? ==> r.value.duration == s.questionDuration + s.answerDuration
    ensures r.Success? ==> r.value.width == s.width && r.value.height == s.height
  {
    var total := s.questionDuration + s.answerDuration;
    var background := BackgroundLayer(s, imageExists, total);
    if background.None? then Failure(InvalidHexColor(s.backgroundColor))
    else if s.wrapWidth <= 0 then Failure(InvalidWrapWidth(s.wrapWidth))
    else Success(Clip(s.width, s.height, Stack(background.value, question, answer, s), total))
  }

  /** The layers of a question clip over a given background, bottom first. */
  function Stack(background: Layer, question: string, answer: string, s: Settings): seq<Layer> {
    var q := s.questionDuration;
    [background,
     TextLayer(question, QuestionRole, q, s),
     TextLayer(answer, AnswerRole, s.answerDuration, s).(start := q)]
    + TimerSequence(q, s)
  }

  /**
   * The layout of a built clip: background over the whole clip, the question
   * caption over `[0, q)`, the answer caption over `[q, q + a)`, then the
   * countdown on top; no layer outlasts the clip.
   */
  lemma QaClipLayout(question: string, answer: string, s: Settings, imageExists: bool)
    requires QaClip(question, answer, s, imageExists).Success?
    ensures var c := QaClip(question, answer, s, imageExists).value;
            && Stacked(c.layers) && |c.layers| == 3 + s.questionDuration
            && c.layers[0] == BackgroundLayer(s, imageExists, c.duration).value
            && c.layers[0].start == 0 && c.layers[0].duration == c.duration
            && c.layers[1].content.text == question && c.layers[1].start == 0 && c.layers[1].duration == s.questionDuration
            && c.layers[2].content.text == answer && c.layers[2].start == s.questionDuration && c.layers[2].duration == s.answerDuration
            && c.layers[1].position == Centered && c.layers[2].position == Centered
            && c.layers[1].fadeIn == s.transitionDuration && c.layers[2].fadeIn == s.transitionDuration
            && c.layers[3..] == TimerSequence(s.questionDuration, s)
            && forall l :: l in c.layers ==> End(l) <= c.duration
  {
    var total := s.questionDuration + s.answerDuration;
    var background := BackgroundLayer(s, imageExists, total).value;
    StackLayout(background, question, answer, s, total);
  }

  lemma StackLayout(background: Layer, question: string, answer: string, s: Settings, total: nat)
    requires background.content.Backdrop? && End(background) <= total
    requires total == s.questionDuration + s.answerDuration
    ensures var layers := Stack(background, question, answer, s);
            && Stacked(layers) && |layers| == 3 + s.questionDuration
            && layers[0] == background
            && layers[1].content.text == question && layers[1].start == 0 && layers[1].duration == s.questionDuration
            && layers[2].content.text == answer && layers[2].start == s.questionDuration && layers[2].duration == s.answerDuration
            && layers[1].position == Centered && layers[2].position == Centered
            && layers[1].fadeIn == s.transitionDuration && layers[2].fadeIn == s.transitionDuration
            && layers[3..] == TimerSequence(s.questionDuration, s)
            && forall l :: l in layers ==> End(l) <= total
  {
    var layers := Stack(background, question, answer, s);
    var ticks := TimerSequence(s.questionDuration, s);
    assert layers[3..] == ticks;
    forall l | l in layers
      ensures End(l) <= total
    {
      var k :| 0 <= k < |layers| && layers[k] == l;
      if k >= 3 {
        assert l == ticks[k - 3];
      }
    }
  }

  /**
   * Within a clip, the question and answer phases split `[0, q + a)`: at every
   * moment exactly one caption is on screen, the question one before `q`.
   */
  lemma CaptionsSplitClip(question: string, answer: string, s: Settings, imageExists: bool, t: real)
    requires QaClip(question, answer, s, imageExists).Success?
    requires 0.0 <= t < QaClip(question, answer, s, imageExists).value.duration as real
    ensures var layers := QaClip(question, answer, s, imageExists).value.layers;
            && Covers(layers[0], t)
            && (Covers(layers[1], t) <==> t < s.questionDuration as real)
            && (Covers(layers[2], t) <==> !Covers(layers[1], t))
  {
    QaClipLayout(question, answer, s, imageExists);
  }

  /**
   * No countdown tick is on screen during the answer phase, and during the
   * question phase exactly the tick numbered `floor(t)` is.
   */
  lemma CountdownOnlyDuringQuestion(question: string, answer: string, s: Settings, imageExists: bool, t: real)
    requires QaClip(question, answer, s, imageExists).Success?
    ensures var layers := QaClip(question, answer, s, imageExists).value.layers;
            forall k :: 3 <= k < |layers| ==>
              (Covers(layers[k], t) <==> (0.0 <= t < s.questionDuration as real && k - 3 == t.Floor))
  {
    var layers := QaClip(question, answer, s, imageExists).value.layers;
    var q := s.questionDuration;
    QaClipLayout(question, answer, s, imageExists);
    TicksPartitionQuestionPhase(q, s, t);
    forall k | 3 <= k < |layers|
      ensures Covers(layers[k], t) <==> (0.0 <= t < q as real && k - 3 == t.Floor)
    {
      assert layers[k] == TimerSequence(q, s)[k - 3];
    }
  }

  /** A five-second question and three-second answer give an eight-second clip with five ticks. */
  lemma FiveThreeExample(s: Settings, imageExists: bool)
    requires s.questionDuration == 5 && s.answerDuration == 3
    requires QaClip("Q", "A", s, imageExists).Success?
    ensures var c := QaClip("Q", "A", s, imageExists).value;
            && c.duration == 8
            && |c.layers| - 3 == 5
            && forall k, t: real :: 3 <= k < |c.layers| && 5.0 <= t < 8.0 ==> !Covers(c.layers[k], t)
  {
    var c := QaClip("Q", "A", s, imageExists).value;
    QaClipLayout("Q", "A", s, imageExists);
    forall k, t: real | 3 <= k < |c.layers| && 5.0 <= t < 8.0
      ensures !Covers(c.layers[k], t)
    {
      CountdownOnlyDuringQuestion("Q", "A", s, imageExists, t);
    }
  }
}

=== FILE: text_clean.dfy ===
/**
 * `clean_text`: Python's `text.replace('\\"', '"')`, which scans left to right
 * and replaces each non-overlapping backslash-quote pair by a bare quote.
 */
module TextClean {

  /** Number of occurrences of `c` in `s`. */
  function Count(s: string, c: char): nat {
    if s == [] then 0 else (if s[0] == c then 1 else 0) + Count(s[1..], c)
  }

  /**
   * Every quote survives, and every removed character is a backslash: the
   * text shrinks by exactly the number of backslashes it loses.
   */
  function CleanText(s: string): (r: string)
    ensures Count(r, '"') == Count(s, '"')
    ensures |s| - |r| == Count(s, '\\') - Count(r, '\\')
    ensures Count(s, '\\') == 0 ==> r == s
    ensures |r| <= |s|
  {
    if |s| >= 2 && s[0] == '\\' && s[1] == '"' then
      assert s[1..][1..] == s[2..];
      ['"'] + CleanText(s[2..])
    else if s == [] then []
    else [s[0]] + CleanText(s[1..])
  }

  /** The inverse direction: writes every quote of `t` as a backslash-quote pair. */
  function Escape(t: string): (r: string)
    ensures |r| == |t| + Count(t, '"')
    ensures r == [] || r[0] != '"'
  {
    if t == [] then []
    else if t[0] == '"' then "\\\"" + Escape(t[1..])
    else [t[0]] + Escape(t[1..])
  }

  /** Cleaning an escaped text restores it exactly, backslashes of its own included. */
  lemma {:induction false} CleanEscapeRoundTrip(t: string)
    ensures CleanText(Escape(t)) == t
  {
    if t == [] {
    } else if t[0] == '"' {
      var e := Escape(t[1..]);
      assert Escape(t) == ['\\', '"'] + e;
      assert (['\\', '"'] + e)[2..] == e;
      CleanEscapeRoundTrip(t[1..]);
      assert t == ['"'] + t[1..];
    } else {
      var e := Escape(t[1..]);
      assert Escape(t) == [t[0]] + e;
      assert ([t[0]] + e)[1..] == e;
      CleanEscapeRoundTrip(t[1..]);
      assert t == [t[0]] + t[1..];
    }
  }

  /**
   * Every backslash-quote pair of any text becomes a bare quote, whatever
   * surrounds it: a pair written between `a` and `b` is never absorbed into a
   * pair of `a`, because it starts with a backslash, not a quote.
   */
  lemma CleanSplitsAtEscapedQuote(a: string, b: string)
    ensures CleanText(a + "\\\"" + b) == CleanText(a) + "\"" + CleanText(b)
  {
    var t := "\\\"" + b;
    assert a + "\\\"" + b == a + t;
    assert t[2..] == b;
    CleanPairHead(t);
    CleanConcat(a, t);
  }

  /** Cleaning works piecewise at any cut that does not put a quote right after the cut. */
  lemma {:induction false} CleanConcat(a: string, c: string)
    requires c == [] || c[0] != '"'
    ensures CleanText(a + c) == CleanText(a) + CleanText(c)
  {
    var s := a + c;
    if a == [] {
      assert s == c;
    } else if |a| >= 2 && a[0] == '\\' && a[1] == '"' {
      assert s[2..] == a[2..] + c;
      CleanPairHead(s);
      CleanPairHead(a);
      CleanConcat(a[2..], c);
      Regroup("\"", CleanText(a[2..]), CleanText(c));
    } else {
      assert s[1..] == a[1..] + c;
      if |a| == 1 && c != [] {
        assert s[1] == c[0];
      }
      CleanPlainHead(s);
      CleanPlainHead(a);
      CleanConcat(a[1..], c);
      Regroup([a[0]], CleanText(a[1..]), CleanText(c));
    }
  }

  lemma Regroup(h: string, x: string, y: string)
    ensures h + (x + y) == (h + x) + y
  {
  }

  lemma CleanPairHead(u: string)
    requires |u| >= 2 && u[0] == '\\' && u[1] == '"'
    ensures CleanText(u) == "\"" + CleanText(u[2..])
  {
  }

  lemma CleanPlainHead(u: string)
    requires u != [] && !(|u| >= 2 && u[0] == '\\' && u[1] == '"')
    ensures CleanText(u) == [u[0]] + CleanText(u[1..])
  {
  }

  /** `s` holds a backslash directly followed by a quote. */
  predicate HasEscapedQuote(s: string) {
    exists i :: 0 <= i < |s| - 1 && s[i] == '\\' && s[i + 1] == '"'
  }

  /** Cleaning changes a text exactly when it holds a backslash-quote pair. */
  lemma CleanChangesIffEscapedQuote(s: string)
    ensures CleanText(s) == s <==> !HasEscapedQuote(s)
  {
    if HasEscapedQuote(s) {
      var i :| 0 <= i < |s| - 1 && s[i] == '\\' && s[i + 1] == '"';
      assert s == s[..i] + "\\\"" + s[i + 2..];
      CleanSplitsAtEscapedQuote(s[..i], s[i + 2..]);
      assert |CleanText(s)| < |s|;
    } else {
      CleanWithoutPairs(s);
    }
  }

  lemma {:induction false} CleanWithoutPairs(s: string)
    requires !HasEscapedQuote(s)
    ensures CleanText(s) == s
  {
    if s != [] {
      forall i | 0 <= i < |s| - 2
        ensures !(s[1..][i] == '\\' && s[1..][i + 1] == '"')
      {
        assert !(s[i + 1] == '\\' && s[i + 2] == '"');
      }
      if |s| >= 2 {
        assert !(s[0] == '\\' && s[1] == '"');
      }
      CleanWithoutPairs(s[1..]);
      assert s == [s[0]] + s[1..];
    }
  }
}

=== FILE: timeline.dfy ===
/**
 * `main`: the rendered questions become one clip each, the clips are played
 * one after another, and the soundtrack is fitted to their total length.
 */
module Timeline {
  import opened Wrappers
  import opened Config
  import opened HexColor
  import opened Layers
  import opened TextClean
  import opened QaVideo
  import opened AudioTrack
  import opened Preview

  /** The clips in playing order and the soundtrack, if any. */
  datatype Video = Video(clips: seq<Clip>, audio: Option<Audio>)

  /** The length of the concatenated clips. */
  function TotalDuration(clips: seq<Clip>): nat {
    if clips == [] then 0 else clips[0].duration + TotalDuration(clips[1..])
  }

  /** Clips of equal length `d` play for `d` times their number. */
  lemma {:induction false} UniformTotal(clips: seq<Clip>, d: nat)
    requires forall k :: 0 <= k < |clips| ==> clips[k].duration == d
    ensures TotalDuration(clips) == |clips| * d
  {
    if clips != [] {
      UniformTotal(clips[1..], d);
    }
  }

  /** The clip of one question, with escaped quotes cleaned from both texts. */
  function ClipFor(q: Question, s: Settings, imageExists: bool): Result<Clip, Error> {
    QaClip(CleanText(q.question), CleanText(q.answer), s, imageExists)
  }

  /** `clips` are the clips of the first `|clips|` questions of `selected`, one for one and in order. */
  predicate ClipsOf(selected: seq<Question>, clips: seq<Clip>, s: Settings, imageExists: bool) {
    && |clips| <= |selected|
    && forall j {:trigger ClipFor(selected[j], s, imageExists)} :: 0 <= j < |clips| ==>
         ClipFor(selected[j], s, imageExists).Success? && clips[j] == ClipFor(selected[j], s, imageExists).value
  }

  lemma ClipsOfAppend(selected: seq<Question>, clips: seq<Clip>, c: Clip, s: Settings, imageExists: bool)
    requires ClipsOf(selected, clips, s, imageExists) && |clips| < |selected|
    requires ClipFor(selected[|clips|], s, imageExists) == Success(c)
    ensures ClipsOf(selected, clips + [c], s, imageExists)
  {
    var clips' := clips + [c];
    forall j | 0 <= j < |clips'|
      ensures ClipFor(selected[j], s, imageExists).Success? && clips'[j] == ClipFor(selected[j], s, imageExists).value
    {
      if j < |clips| {
        assert clips'[j] == clips[j];
      }
    }
  }

  /** Every clip lasts one question phase plus one answer phase. */
  lemma VideoLength(selected: seq<Question>, clips: seq<Clip>, s: Settings, imageExists: bool)
    requires ClipsOf(selected, clips, s, imageExists) && |clips| == |selected|
    ensures TotalDuration(clips) == |selected| * (s.questionDuration + s.answerDuration)
  {
    forall k | 0 <= k < |clips|
      ensures clips[k].duration == s.questionDuration + s.answerDuration
    {
      ClipForLength(selected[k], clips[k], s, imageExists);
    }
    UniformTotal(clips, s.questionDuration + s.answerDuration);
  }

  lemma ClipForLength(q: Question, c: Clip, s: Settings, imageExists: bool)
    requires ClipFor(q, s, imageExists).Success? && c == ClipFor(q, s, imageExists).value
    ensures c.duration == s.questionDuration + s.answerDuration
  {
  }

  predicate BackgroundUsable(s: Settings, imageExists: bool) {
    UsesImage(s, imageExists) || DecodeColor(s.backgroundColor).Some?
  }

  /**
   * The whole video. It fails when no question is selected (an empty
   * concatenation) or, before that, when the first clip cannot decode the
   * background colour; otherwise it holds one clip per selected question, in
   * order, and a looping soundtrack lasts exactly as long as the clips.
   */
  method BuildVideo(questions: seq<Question>, s: Settings, imageExists: bool, audioFileExists: bool, loadedAudio: Option<real>)
    returns (r: Result<Video, Error>)
    requires loadedAudio.Some? ==> loadedAudio.value >= 0.0
    ensures var selected := SelectQuestions(questions, s.previewMode);
            r.Success? <==> |selected| > 0 && BackgroundUsable(s, imageExists) && s.wrapWidth > 0
    ensures var selected := SelectQuestions(questions, s.previewMode);
            r.Failure? ==> r.error == (if |selected| == 0 then NoClips
                                       else if !BackgroundUsable(s, imageExists) then InvalidHexColor(s.backgroundColor)
                                       else InvalidWrapWidth(s.wrapWidth))
    ensures var selected := SelectQuestions(questions, s.previewMode);
            r.Success? ==> |r.value.clips| == |selected| && ClipsOf(selected, r.value.clips, s, imageExists)
    ensures r.Success? ==>
              r.value.audio == BuildTrack(s.audio, audioFileExists, loadedAudio, TotalDuration(r.value.clips) as real)
    ensures r.Success? && r.value.audio.Some? && Loops(s.audio.value) ==>
              Duration(r.value.audio.value) == TotalDuration(r.value.clips) as real
  {
    var selected := SelectQuestions(questions, s.previewMode);
    var clips: seq<Clip> := [];
    var k := 0;
    while k < |selected|
      invariant 0 <= k <= |selected| && |clips| == k
      invariant ClipsOf(selected, clips, s, imageExists)
      invariant k > 0 ==> BackgroundUsable(s, imageExists) && s.wrapWidth > 0
    {
      var clip := ClipFor(selected[k], s, imageExists);
      if clip.Failure? {
        return Failure(clip.error);
      }
      ClipsOfAppend(selected, clips, clip.value, s, imageExists);
      clips := clips + [clip.value];
      k := k + 1;
    }
    if |clips| == 0 {
      return Failure(NoClips);
    }
    var total := TotalDuration(clips);
    r := Success(Video(clips, BuildTrack(s.audio, audioFileExists, loadedAudio, total as real)));
  }
}

=== FILE: timer.dfy ===
/**
 * The countdown of `create_qa_video`: one one-second tick per second of the
 * question phase, built by `create_timer_clip` and placed at its index.
 */
module Timer {
  import opened Wrappers
  import opened Config
  import opened Decimal
  import opened Layers

  /** The vertical offset of every tick: `('center', 20)`. */
  const TimerTop: int := 20

  /**
   * `create_timer_clip(q, i, settings).set_start(i)`: the numeral is
   * `str(int(q - i))`, the clip is cut to one second, and it fades in over the
   * transition duration.
   */
  function TimerTick(questionDuration: nat, i: nat, s: Settings): (r: Layer)
    ensures r.content.Countdown? && ParseInt(r.content.numeral) == Some(questionDuration - i)
    ensures r.content.shadowed == s.shadowEnabled
    ensures r.position == CenteredAt(TimerTop) && r.fadeIn == s.transitionDuration
    ensures forall t: real :: Covers(r, t) <==> i as real <= t < (i + 1) as real
  {
    IntTextRoundTrip(questionDuration - i);
    Layer(Countdown(IntText(questionDuration - i), s.shadowEnabled), CenteredAt(TimerTop), i, 1, s.transitionDuration)
  }

  /**
   * The first `k` ticks, as the loop over `range(q)` has appended them after
   * `k` iterations: tick `i` starts at `i`, lasts one second, reads `q - i`,
   * and ends no later than the question phase.
   */
  function Ticks(q: nat, k: nat, s: Settings): (ticks: seq<Layer>)
    requires k <= q
    ensures |ticks| == k
    ensures forall i :: 0 <= i < k ==> ticks[i].start == i && ticks[i].duration == 1
    ensures forall i :: 0 <= i < k ==> End(ticks[i]) <= q
    ensures forall i :: 0 <= i < k ==> ticks[i].content.Countdown? && ParseInt(ticks[i].content.numeral) == Some(q - i)
    ensures forall i :: 0 <= i < k ==> ticks[i].position == CenteredAt(TimerTop) && ticks[i].fadeIn == s.transitionDuration
    ensures forall i :: 0 <= i < k ==> ticks[i].content.shadowed == s.shadowEnabled
  {
    if k == 0 then []
    else
      Ticks(q, k - 1, s) + [TimerTick(q, k - 1, s)]
  }

  /** The whole countdown over a question phase of `q` seconds. */
  function TimerSequence(q: nat, s: Settings): seq<Layer> {
    Ticks(q, q, s)
  }

  /**
   * The numerals run `q, q - 1, ..., 1`: each is a bare positive integer
   * with no sign and no leading zero, so neither 0 nor a negative is shown.
   */
  lemma CountdownNumerals(q: nat, s: Settings)
    ensures forall i :: 0 <= i < q ==>
              var n := TimerSequence(q, s)[i].content.numeral;
              ParseInt(n) == Some(q - i) && 1 <= q - i <= q && n[0] != '-' && n[0] != '0'
    ensures q > 0 ==> ParseInt(TimerSequence(q, s)[0].content.numeral) == Some(q)
    ensures q > 0 ==> TimerSequence(q, s)[q - 1].content.numeral == "1"
  {
    var ticks := TimerSequence(q, s);
    forall i | 0 <= i < q
      ensures ticks[i].content.numeral[0] != '-' && ticks[i].content.numeral[0] != '0'
    {
      TickIsTimerTick(q, q, i, s);
    }
    if q > 0 {
      TickIsTimerTick(q, q, q - 1, s);
    }
  }

  lemma {:induction false} TickIsTimerTick(q: nat, k: nat, i: nat, s: Settings)
    requires i < k <= q
    ensures Ticks(q, k, s)[i] == TimerTick(q, i, s)
  {
    if i < k - 1 {
      TickIsTimerTick(q, k - 1, i, s);
    }
  }

  /**
   * The ticks partition the question phase: at a time `t` in `[0, q)` exactly
   * the tick numbered `floor(t)` is on screen, and outside it none is, so the
   * countdown has no gap, no overlap, and never reaches the answer phase.
   */
  lemma TicksPartitionQuestionPhase(q: nat, s: Settings, t: real)
    ensures forall i :: 0 <= i < q ==>
              (Covers(TimerSequence(q, s)[i], t) <==> (0.0 <= t < q as real && i == t.Floor))
  {
    var ticks := TimerSequence(q, s);
    forall i | 0 <= i < q
      ensures Covers(ticks[i], t) <==> (0.0 <= t < q as real && i == t.Floor)
    {
      assert ticks[i].start == i && ticks[i].duration == 1;
    }
  }
}

=== FILE: wrappers.dfy ===
/** `Option` and `Result`, shared by the model. */
module Wrappers {

  /** A value that may be absent: a missing settings key, a failed parse. */
  datatype Option<+T> = None | Some(value: T) {

    /** The wrapped value, or `default` when there is none (Python's `dict.get(key, default)`). */
    function GetOr(default: T): T {
      match this
      case Some(v) => v
      case None => default
    }
  }

  /** The outcome of an operation that raises in the source: `Failure` carries the reason. */
  datatype Result<+T, +E> = Success(value: T) | Failure(error: E)
}
